=== FILE: README.md ===
# Portfolio terminal session, modelled in Dafny

The portfolio site presents itself as a shell. A visitor types a line into a
text field and presses Enter. The `Terminal` component echoes the line after
the prompt `visitor@udoka.dev:~$ `, asks `getCommandOutput` for an answer, and
appends that answer to the scrollback. A few verbs also change the session:
`color` sets the accent colour, `theme` toggles light/dark, `clear`/`cls`
reset the scrollback to the three welcome lines, `restart` resets scrollback,
field and colour, and `quit` replaces the scrollback with a goodbye line.
Submitted lines go into a recall buffer. ArrowUp and ArrowDown walk it with a
cursor that is either null or an index into the buffer.

This project models that logic as pure functions over an immutable state
record:

- `option.dfy` (`Options`): the optional value used for the cursor and for a
  missing argument.
- `text.dfy` (`Text`): the ECMAScript string operations the component relies
  on. These are `split(" ")`, `join("\n")` and `trim()` with ECMAScript's exact
  whitespace set, plus the part of `toLowerCase()` that decides equality with
  an ASCII word.
- `interpreter.dfy` (`Interpreter`): `getCommandOutput`. The callbacks it
  receives become a `Patch` returned with the output text, so interpretation is
  a total function of the command table and the line. The command table
  (`commands.json`) is a parameter.
- `session.dfy` (`Session`): the component's state, the effect callbacks, and
  the handlers `executeCommand`, `handleInput` and `handleKeyDown`. Each handler
  is a transition on the state. React state updates are applied in the order
  the handlers issue them. For example, on `restart` the scrollback first
  becomes the welcome lines and then gets the echo and "Session restarted.".

The recall cursor's invariant (`Session.Valid`) holds initially and is kept by
every event and by every run of events.

Behaviour worth noting:

- Exact `clear` resets the scrollback to the three welcome lines. It does not
  empty it.
- The verb is split off at the first single space, not at a run of
  whitespace. So `color  red` (two spaces) has an empty first argument and gets
  the usage line.
- Only the fourteen built-in verbs are recognised. A name listed in the
  command table but outside that set is answered "Command not found: …".
- `restart` does not clear the recall buffer.

The banner is modelled as the value its template literal denotes. In a
template literal, `\/` and `\_` stand for a plain `/` and `_`, so the banner
holds no backslash.

## Model

| member | source | states |
|---|---|---|
| Text.Split | src/components/terminal/Terminal.tsx:26 | `split(" ")` yields at least one piece. No piece holds the separator, and joining the pieces gives back the line. |
| Text.JoinInjective | src/components/terminal/Terminal.tsx:30-33 | Two non-empty lists of separator-free pieces that join to the same text are equal. |
| Text.SplitJoin | src/components/terminal/Terminal.tsx:26-33 | Splitting undoes joining whenever no piece holds the separator. |
| Text.Trim | src/components/terminal/Terminal.tsx:132 | `trim()` never lengthens the string, and its result neither starts nor ends with ECMAScript whitespace. It is empty exactly when the string is blank. |
| Text.TrimIsSlice | src/components/terminal/Terminal.tsx:142-143 | `trim()` removes only whitespace and only at the ends: the result is a slice `s[a..b]` with `s[..a]` and `s[b..]` blank. |
| Text.TrimIdempotent | src/components/terminal/Terminal.tsx:142-143 | Trimming the already trimmed line passed to `executeCommand` changes nothing. |
| Text.LowerChar | src/components/terminal/Terminal.tsx:27 | Lower-casing turns A-Z into a-z and the Kelvin sign into 'k'. It yields an ASCII lower-case letter only from that letter itself, its capital, or the Kelvin sign. |
| Text.Lower | src/components/terminal/Terminal.tsx:27 | The modelled lowering keeps the length and lowers each character on its own. |
| Text.LowerMatches | src/components/terminal/Terminal.tsx:27-28 | A string lowers to a lower-case ASCII word exactly when it spells that word in any mix of letter cases. |
| Text.Join | src/components/terminal/Terminal.tsx:30-33 | `join` starts with the first piece. With two or more pieces the separator follows it; with one piece the result is that piece. |
| Interpreter.Classify | src/components/terminal/Terminal.tsx:28-66 | Any case other than `default` that the `switch` selects is the one whose label equals the word. |
| Interpreter.ClassifyUnknown | src/components/terminal/Terminal.tsx:28-66 | The `switch` takes its `default` branch exactly for words outside the fourteen case labels. |
| Interpreter.ClassifyName | src/components/terminal/Terminal.tsx:28-64 | Each built-in verb's word selects that verb's own case. |
| Interpreter.Interpret | src/components/terminal/Terminal.tsx:17-68 | The output is empty exactly for `clear`/`cls`. Each effect (reset, restart, quit, theme flip, recolour) is fired by its own verb and no other. Recolouring needs a non-empty first argument. |
| Interpreter.Dispatch | src/components/terminal/Terminal.tsx:26-28 | A case other than `default` is selected only when the lower-cased first token equals its label. |
| Interpreter.FirstArg | src/components/terminal/Terminal.tsx:41 | `args[0]` is missing exactly when the line holds no space. Otherwise it is the space-free text right after the verb and its space, running up to the next space or the end of the line. |
| Interpreter.VerbAnyCase | src/components/terminal/Terminal.tsx:26-28 | A recognised verb is selected exactly when the first token spells its label in any mix of letter cases, so "HELP" selects `help`. |
| Interpreter.ProfileReplies | src/components/terminal/Terminal.tsx:34-39 | `whoami`, `projects` and `experience` answer their fixed texts, fire nothing, and ignore any arguments. |
| Interpreter.ContactReplies | src/components/terminal/Terminal.tsx:54-61 | `about`, `contact`, `social` and `skills` answer their fixed texts, fire nothing, and ignore any arguments. |
| Interpreter.VerbIsFirstToken | src/components/terminal/Terminal.tsx:26 | The verb is the text before the first single space, or the whole line. It holds no space. |
| Interpreter.UnknownVerb | src/components/terminal/Terminal.tsx:65-66 | A line whose lower-cased verb is outside the fixed set is answered "Command not found: " plus the whole line as typed, with no effect. |
| Interpreter.KnownVerbIsFound | src/components/terminal/Terminal.tsx:28-64 | A recognised verb never gets an answer that starts with "Command not found: ". |
| Interpreter.VerbCaseIgnored | src/components/terminal/Terminal.tsx:26-28 | For a recognised verb, lines whose verbs agree once lower-cased and whose arguments agree get the same reply. |
| Interpreter.ColorCommand | src/components/terminal/Terminal.tsx:40-43 | A missing or empty first argument gets the usage line and no effect. Otherwise the colour is set to `args[0]` verbatim and "Changed color to `args[0]`" is returned. |
| Interpreter.HelpLines | src/components/terminal/Terminal.tsx:30-33 | The listing has 1 + \|table\| lines: the header, then "- name: description" per entry in table order. |
| Interpreter.HelpListing | src/components/terminal/Terminal.tsx:29-33 | `help` fires nothing. When entries hold no line break, its output splits on "\n" into exactly the header and the per-entry lines. |
| Interpreter.TableOnlyFeedsHelp | src/components/terminal/Terminal.tsx:15-66 | The command table affects no reply except `help`. |
| Interpreter.EffectReplies | src/components/terminal/Terminal.tsx:44-64 | `theme` answers "Theme toggled.", `clear`/`cls` answer "", `restart` answers "Session restarted." and `quit` answers "Exiting...". Each fires its effect. |
| Session.Init | src/components/terminal/Terminal.tsx:77-95 | The session starts with the welcome lines, an empty field, the colour "#22c55e", an empty recall buffer and a null cursor, which is valid. |
| Session.Flip | src/components/terminal/Terminal.tsx:118 | Toggling always changes the theme. |
| Session.Apply | src/components/terminal/Terminal.tsx:97-118 | No effect callback touches the recall buffer or the cursor. |
| Session.Entry | src/components/terminal/Terminal.tsx:150-163 | `commandHistory[i] \|\| ""` is the entry at `i` when there is one, and "" otherwise. |
| Session.Transcript | src/components/terminal/Terminal.tsx:127-131 | A submission adds the echo, then the output only when it is non-empty. |
| Session.Execute | src/components/terminal/Terminal.tsx:120-134 | The cursor always ends null. Exact "clear"/"cls" leaves the recall buffer alone. Any other line is remembered exactly when it is not blank. Earlier recall entries always stay in place. |
| Session.Commit | src/components/terminal/Terminal.tsx:122-133 | After the answer: the cursor ends null. Exact "clear"/"cls" leaves the recall buffer alone. Any other line is remembered exactly when it is not blank, and its echo and output are appended after the effect's scrollback. |
| Session.ExecuteExactClear | src/components/terminal/Terminal.tsx:97-101 | Exact "clear"/"cls" leaves the scrollback as the three welcome lines with no echo. The recall buffer, colour and theme are unchanged. The field is empty and the cursor null. |
| Session.ExactClearDispatch | src/components/terminal/Terminal.tsx:44-46 | The exact lines "clear" and "cls" select the clear branch. |
| Session.NotExactClear | src/components/terminal/Terminal.tsx:122-126 | A line whose verb does not select the clear branch never takes the early return. |
| Session.ExecuteKeepsScrollback | src/components/terminal/Terminal.tsx:127-131 | Any verb but clear/cls/restart/quit keeps every earlier line and appends exactly the echo and the output. |
| Session.ExecuteClearVerb | src/components/terminal/Terminal.tsx:122-131 | "CLEAR", "clear x" and the like miss the early return. The scrollback becomes the welcome lines plus the echo. |
| Session.ShoutedClearDispatch | src/components/terminal/Terminal.tsx:27-46 | "CLEAR" selects the clear case but is not the exact line "clear". |
| Session.ShoutedClear | src/components/terminal/Terminal.tsx:44-46 | Submitting "CLEAR" leaves the welcome lines followed by its echo. |
| Session.ExecuteRestart | src/components/terminal/Terminal.tsx:102-113 | restart leaves the welcome lines, the echo and "Session restarted.". The colour is the default and the field is empty. |
| Session.ExecuteQuit | src/components/terminal/Terminal.tsx:114-117 | quit leaves the goodbye line, the echo and "Exiting...". The field is empty and the colour is kept. |
| Session.ExecuteColor | src/components/terminal/Terminal.tsx:40-43 | The colour changes only through `color` with a non-empty argument (to it) or through restart (to the default). |
| Session.ExecuteTheme | src/components/terminal/Terminal.tsx:62-64 | The theme flips exactly on `theme`. |
| Session.Submit | src/components/terminal/Terminal.tsx:142-145 | Enter on a blank field changes nothing. Otherwise the field is cleared, the cursor is null and validity is kept. |
| Session.SubmitRuns | src/components/terminal/Terminal.tsx:142-145 | Enter on a non-blank field runs `executeCommand` on the trimmed text: scrollback, colour, theme and recall buffer are what that call leaves. The field ends empty and the cursor null. |
| Session.SubmitRemembers | src/components/terminal/Terminal.tsx:132 | Enter on a non-blank field, other than exact clear/cls, appends the trimmed text to the recall buffer and echoes it. |
| Session.Up | src/components/terminal/Terminal.tsx:146-153 | ArrowUp does nothing on an empty buffer. Otherwise the cursor goes from null to len-1, or from i to max(0, i-1), and the field shows that entry. |
| Session.Down | src/components/terminal/Terminal.tsx:154-167 | ArrowDown does nothing on an empty buffer or a null cursor. Past the newest entry the cursor becomes null and the field "". Otherwise it steps one newer and shows that entry. |
| Session.Type | src/components/terminal/Terminal.tsx:136-139 | Typing sets the field and nulls the cursor. Scrollback, recall buffer, colour and theme are unchanged. |
| Session.Press | src/components/terminal/Terminal.tsx:141-169 | Keys other than Enter, ArrowUp and ArrowDown change nothing, and validity is kept. |
| Session.Step | src/components/terminal/Terminal.tsx:136-169 | Every event keeps the cursor null or a valid index. |
| Session.RunKeepsValid | src/components/terminal/Terminal.tsx:95-169 | Through any sequence of events the cursor stays null or a valid index. |
| Session.StepExtendsRecall | src/components/terminal/Terminal.tsx:132 | No event removes or reorders a recall entry. |
| Session.RunExtendsRecall | src/components/terminal/Terminal.tsx:94-169 | Over a whole session the recall buffer only grows at its end. |
| Session.UpThenDown | src/components/terminal/Terminal.tsx:146-166 | ArrowDown undoes ArrowUp from any entry but the oldest. |
| Session.DownThenUp | src/components/terminal/Terminal.tsx:146-166 | ArrowUp undoes ArrowDown from any entry but the newest. |
| Session.UpThenDownFromIdle | src/components/terminal/Terminal.tsx:148-161 | From a null cursor, ArrowUp then ArrowDown ends null with an empty field. |
| Session.RecallScenario | src/components/terminal/Terminal.tsx:146-166 | A corollary of `WalkLastTwo`. With buffer ["about", "skills"]: Up, Up shows "about", Down shows "skills", and Down again shows "" with a null cursor. |
| Session.TypeThenSubmit | src/components/terminal/Terminal.tsx:132-145 | Typing a trimmed command and pressing Enter records it as the newest entry, with a null cursor and an empty field. |
| Session.WalkLastTwo | src/components/terminal/Terminal.tsx:146-166 | With a null cursor and `a`, `b` as the two newest entries: Up, Up shows `a`, Down then shows `b`, and Down again shows "" with a null cursor. |

## Left out

- Rendering: the JSX, styling, background image, banner layout and the red styling of "Command not found" lines. These are presentation.
- The username modal: `handleModalSubmit`, `showModal`, `modalInput` and `username`. `restart` also clears the username, empties the modal field and reopens the modal. None of that is in the state record. The `username` argument of `getCommandOutput` is never read.
- Theme values other than light and dark. The app's provider (src/app/layout.tsx:34-35) sets `defaultTheme="system"` with `enableSystem`. So a visitor with no stored choice starts at "system", whatever the screen shows, and the first `theme` command then always sets "dark". The model's `Init` takes light or dark as a parameter, and the `next-themes` internals are not part of this model.
- React scheduling: updates are applied in call order, one event at a time. `preventDefault` on the arrow keys has no state effect.
- The contents of `commands.json`: it is not part of this model, so the table is a parameter.
- Autocomplete: no such code exists in the component.
- `toLowerCase` beyond deciding equality with an ASCII word. Characters other than A-Z and the Kelvin sign are kept as they are. ECMAScript leaves the other ASCII characters unchanged too, and lowers every other non-ASCII character to text that still holds a non-ASCII character (U+0130 becomes 'i' followed by U+0307). So the dispatch picks the same branch either way.
- Unpaired UTF-16 surrogates: Dafny strings hold Unicode scalar values.
- src/app/layout.tsx, src/app/page.tsx and next.config.ts: fonts, metadata, providers and build settings. They contain no session logic.
- Session.SubmitRemembers: says only that the echo is somewhere in the scrollback. Session.SubmitRuns ties Enter to `executeCommand`, and the exact position for each verb is stated by Session.ExecuteKeepsScrollback, Session.ExecuteClearVerb, Session.ExecuteRestart and Session.ExecuteQuit.
- Interpreter.HelpListing: states the line structure only for tables whose names and descriptions hold no line break. Otherwise the joined text has more lines than entries.

=== FILE: interpreter.dfy ===
/** `getCommandOutput`: the command interpreter. The callbacks it
    receives (setColor, clearHistory, restart, quit, toggleTheme) become a
    `Patch` returned next to the output text, so interpretation is a total pure
    function of the command table and the submitted line. */
module Interpreter {

  import opened Options
  import opened Text

  /** One entry of the command table (`commands.json`); `kind` is its `type`. */
  datatype Command = Command(name: string, description: string, kind: string)

  /** The effect a verb fires, applied by the session after interpretation. */
  datatype Patch =
    | Keep
    | Recolor(color: string)
    | ResetHistory
    | RestartSession
    | QuitSession
    | FlipTheme

  datatype Reply = Reply(output: string, patch: Patch)

  /** The cases of the dispatch. */
  datatype Builtin =
    | Help | WhoAmI | Projects | Experience | Color | Clear | Cls
    | Restart | Quit | About | Contact | Social | Skills | Theme
    | Unknown

  const NotFoundPrefix := "Command not found: "
  const HelpHeader := "Available commands:"
  const ColorUsage := "Usage: color [any CSS color]"
  const ColorChanged := "Changed color to "

  /** The fixed answers of the verbs that take no argument. */
  const WhoAmIText := "I'm Udoka, a Software Engineer!"
  const ProjectsText := "- Portfolio Terminal\n" + "- E-commerce App\n" + "- Blog Platform"
  const ExperienceText := "3+ years in web development, " + "React, Next.js, Node.js, and more."
  const AboutText := "This is a portfolio terminal for Udoka. " + "Type 'help' to see what you can do!"
  const ContactText := "Email: udoka@example.com\n" + "Phone: +1234567890"
  const SocialText := "Twitter: @udoka\n" + "GitHub: github.com/udoka"
  const SkillsText := "JavaScript, TypeScript, React, Next.js, " + "Node.js, CSS, HTML, UI/UX"

  /** The verbs the dispatch recognises; everything else is "not found". */
  const Verbs: set<string> := {
    "help", "whoami", "projects", "experience", "color", "clear", "cls",
    "restart", "quit", "about", "contact", "social", "skills", "theme"
  }

  /** The lower-case word that selects a case of the dispatch. */
  function Name(b: Builtin): string {
    match b
    case Help => "help"
    case WhoAmI => "whoami"
    case Projects => "projects"
    case Experience => "experience"
    case Color => "color"
    case Clear => "clear"
    case Cls => "cls"
    case Restart => "restart"
    case Quit => "quit"
    case About => "about"
    case Contact => "contact"
    case Social => "social"
    case Skills => "skills"
    case Theme => "theme"
    case Unknown => ""
  }

  /** The `switch` on the lower-cased verb: the case whose word it is, or
      `Unknown` (the `default` branch) for a word outside `Verbs`. */
  function Classify(word: string): (b: Builtin)
    ensures b != Unknown ==> Name(b) == word
  {
    match word
    case "help" => Help
    case "whoami" => WhoAmI
    case "projects" => Projects
    case "experience" => Experience
    case "color" => Color
    case "clear" => Clear
    case "cls" => Cls
    case "restart" => Restart
    case "quit" => Quit
    case "about" => About
    case "contact" => Contact
    case "social" => Social
    case "skills" => Skills
    case "theme" => Theme
    case _ => Unknown
  }

  /** The default branch is taken exactly for words outside `Verbs`. */
  lemma ClassifyUnknown(word: string)
    ensures Classify(word) == Unknown <==> word !in Verbs
  {
  }

  /** Every recognised word selects its own case. */
  lemma ClassifyName(b: Builtin)
    requires b != Unknown
    ensures Classify(Name(b)) == b
  {
  }

  /** Every case label is a word of lower-case ASCII letters. */
  lemma NameIsLower(b: Builtin)
    ensures IsLowerWord(Name(b))
  {
  }

  /** The first token of `cmd.split(" ")`. */
  function Verb(cmd: string): string {
    Split(cmd, ' ')[0]
  }

  /** `args[0]`: the second token of `cmd.split(" ")`, if there is one. */
  function FirstArg(cmd: string): (r: Option<string>)
    ensures r.None? <==> ' ' !in cmd
    ensures r.Some? ==> ' ' !in r.value && Verb(cmd) + [' '] + r.value <= cmd
    ensures r.Some? ==> var e := |Verb(cmd)| + 1 + |r.value|; e == |cmd| || cmd[e] == ' '
  {
    var parts := Split(cmd, ' ');
    if |parts| >= 2 then
      var tail := Join(parts[1..], ' ');
      assert cmd == parts[0] + [' '] + tail;
      assert parts[1..][0] == parts[1];
      assert tail[..|parts[1]|] == parts[1];
      assert (parts[0] + [' '] + parts[1]) == cmd[..|parts[0]| + 1 + |parts[1]|];
      assert |parts| >= 3 ==> tail[|parts[1]|] == ' ';
      Some(parts[1])
    else
      None
  }

  /** The case of the dispatch a line selects: its verb, lower-cased. */
  function Dispatch(cmd: string): (b: Builtin)
    ensures b != Unknown ==> Name(b) == Lower(Verb(cmd))
  {
    Classify(Lower(Verb(cmd)))
  }

  function HelpLine(c: Command): string {
    "- " + c.name + ": " + c.description
  }

  /** The lines of the `help` listing: a header, then one line per table entry. */
  function HelpLines(table: seq<Command>): (lines: seq<string>)
    ensures |lines| == 1 + |table|
    ensures lines[0] == HelpHeader
    ensures forall i :: 0 <= i < |table| ==> lines[i + 1] == HelpLine(table[i])
  {
    [HelpHeader] + seq(|table|, i requires 0 <= i < |table| => HelpLine(table[i]))
  }

  function HelpText(table: seq<Command>): string {
    Join(HelpLines(table), '\n')
  }

  /** The fixed answer of a verb that takes no argument. */
  function Canned(b: Builtin): string {
    match b
    case WhoAmI => WhoAmIText
    case Projects => ProjectsText
    case Experience => ExperienceText
    case Clear => ""
    case Cls => ""
    case Restart => "Session restarted."
    case Quit => "Exiting..."
    case About => AboutText
    case Contact => ContactText
    case Social => SocialText
    case Skills => SkillsText
    case Theme => "Theme toggled."
    case _ => ""
  }

  /** The effect a verb that takes no argument fires. */
  function EffectOf(b: Builtin): Patch {
    match b
    case Clear => ResetHistory
    case Cls => ResetHistory
    case Restart => RestartSession
    case Quit => QuitSession
    case Theme => FlipTheme
    case _ => Keep
  }

  /** The reply to one submitted line. Output is empty exactly for `clear`/`cls`,
      and every effect is fired by its own verb only. */
  function Interpret(table: seq<Command>, cmd: string): (r: Reply)
    ensures r.output == "" <==> Dispatch(cmd) in {Clear, Cls}
    ensures r.patch == ResetHistory <==> Dispatch(cmd) in {Clear, Cls}
    ensures r.patch == RestartSession <==> Dispatch(cmd) == Restart
    ensures r.patch == QuitSession <==> Dispatch(cmd) == Quit
    ensures r.patch == FlipTheme <==> Dispatch(cmd) == Theme
    ensures r.patch.Recolor? <==> Dispatch(cmd) == Color && FirstArg(cmd) !in {None, Some("")}
  {
    var args := Split(cmd, ' ')[1..];
    match Dispatch(cmd)
    case Help =>
      assert HelpText(table)[..|HelpHeader|] == HelpHeader;
      Reply(HelpText(table), Keep)
    case Color =>
      if |args| == 0 || args[0] == "" then Reply(ColorUsage, Keep)
      else Reply(ColorChanged + args[0], Recolor(args[0]))
    case Unknown => Reply(NotFoundPrefix + cmd, Keep)
    case b => Reply(Canned(b), EffectOf(b))
  }

  /** Used by the session lemmas: a verb that takes no argument answers with
      its `Canned` text and its `EffectOf` effect. */
  lemma CannedReply(table: seq<Command>, cmd: string)
    requires Dispatch(cmd) !in {Help, Color, Unknown}
    ensures Interpret(table, cmd) == Reply(Canned(Dispatch(cmd)), EffectOf(Dispatch(cmd)))
  {
  }

  /** `whoami`, `projects` and `experience` each answer their fixed text,
      fire nothing, and ignore whatever follows the verb on the line. */
  lemma ProfileReplies(table: seq<Command>, cmd: string)
    ensures Dispatch(cmd) == WhoAmI ==>
              Interpret(table, cmd) == Reply(WhoAmIText, Keep)
    ensures Dispatch(cmd) == Projects ==>
              Interpret(table, cmd) == Reply(ProjectsText, Keep)
    ensures Dispatch(cmd) == Experience ==>
              Interpret(table, cmd) == Reply(ExperienceText, Keep)
  {
  }

  /** `about`, `contact`, `social` and `skills` each answer their fixed text,
      fire nothing, and ignore whatever follows the verb on the line. */
  lemma ContactReplies(table: seq<Command>, cmd: string)
    ensures Dispatch(cmd) == About ==>
              Interpret(table, cmd) == Reply(AboutText, Keep)
    ensures Dispatch(cmd) == Contact ==>
              Interpret(table, cmd) == Reply(ContactText, Keep)
    ensures Dispatch(cmd) == Social ==>
              Interpret(table, cmd) == Reply(SocialText, Keep)
    ensures Dispatch(cmd) == Skills ==>
              Interpret(table, cmd) == Reply(SkillsText, Keep)
  {
  }

  /** The verb is the text before the first single space (all of `cmd` when it
      has none), and it holds no space. */
  lemma VerbIsFirstToken(cmd: string)
    ensures ' ' !in Verb(cmd)
    ensures |Verb(cmd)| <= |cmd| && cmd[..|Verb(cmd)|] == Verb(cmd)
    ensures |Verb(cmd)| < |cmd| ==> cmd[|Verb(cmd)|] == ' '
  {
    var parts := Split(cmd, ' ');
    if |parts| >= 2 {
      assert cmd[|parts[0]|] == ' ';
    }
  }

  /** A line whose verb is not recognised, in any letter case, is answered
      with "Command not found: " and the whole line as typed, and fires nothing. */
  lemma UnknownVerb(table: seq<Command>, cmd: string)
    requires Lower(Verb(cmd)) !in Verbs
    ensures Interpret(table, cmd) == Reply(NotFoundPrefix + cmd, Keep)
  {
    ClassifyUnknown(Lower(Verb(cmd)));
    UnknownReply(table, cmd);
  }

  lemma UnknownReply(table: seq<Command>, cmd: string)
    requires Dispatch(cmd) == Unknown
    ensures Interpret(table, cmd) == Reply(NotFoundPrefix + cmd, Keep)
  {
  }

  /** A recognised verb never produces the "not found" answer. */
  lemma KnownVerbIsFound(table: seq<Command>, cmd: string)
    requires Dispatch(cmd) != Unknown
    ensures !(NotFoundPrefix <= Interpret(table, cmd).output)
  {
    var b := Dispatch(cmd);
    if b == Help {
      HelpIsFound(table, cmd);
    } else if b == Color {
      ColorIsFound(table, cmd);
    } else {
      CannedIsNotNotFound(b);
    }
  }

  lemma HelpIsFound(table: seq<Command>, cmd: string)
    requires Dispatch(cmd) == Help
    ensures !(NotFoundPrefix <= Interpret(table, cmd).output)
  {
    var out := Interpret(table, cmd).output;
    assert NotFoundPrefix[0] == 'C';
    assert out[..|HelpHeader|] == HelpHeader;
    assert out[0] == 'A';
  }

  lemma ColorIsFound(table: seq<Command>, cmd: string)
    requires Dispatch(cmd) == Color
    ensures !(NotFoundPrefix <= Interpret(table, cmd).output)
  {
    ColorCommand(table, cmd);
    if FirstArg(cmd) in {None, Some("")} {
      UsageIsNotNotFound();
    } else {
      ChangedIsNotNotFound(FirstArg(cmd).value);
    }
  }

  lemma UsageIsNotNotFound()
    ensures !(NotFoundPrefix <= ColorUsage)
  {
    DiffersAt(NotFoundPrefix, ColorUsage, 0);
  }

  lemma ChangedIsNotNotFound(arg: string)
    ensures !(NotFoundPrefix <= ColorChanged + arg)
  {
    var out := ColorChanged + arg;
    assert out[1] == ColorChanged[1] == 'h';
    DiffersAt(NotFoundPrefix, out, 1);
  }

  /** A sequence is not a prefix of one it differs from at a shared index. */
  lemma DiffersAt(p: string, s: string, i: nat)
    requires i < |p| && i < |s| && p[i] != s[i]
    ensures !(p <= s)
  {
  }

  /** No fixed answer starts like the "not found" answer. */
  lemma CannedIsNotNotFound(b: Builtin)
    ensures Canned(b) == [] || Canned(b)[0] != NotFoundPrefix[0]
  {
    assert NotFoundPrefix[0] == 'C';
    match b
    case Help => case WhoAmI => case Projects => case Experience => case Color =>
    case Clear => case Cls => case Restart => case Quit => case About =>
    case Contact => case Social => case Skills => case Theme => case Unknown =>
  }

  /** A recognised verb is selected exactly when the line's first token spells
      its word in any mix of letter cases: "HELP", "Help" and "help" all
      select `help`, and nothing else does. */
  lemma VerbAnyCase(b: Builtin, cmd: string)
    requires b != Unknown
    ensures Dispatch(cmd) == b <==> SpellsIgnoringCase(Verb(cmd), Name(b))
  {
    NameIsLower(b);
    LowerMatches(Verb(cmd), Name(b));
    ClassifyName(b);
  }

  /** Matching ignores letter case: two lines whose verbs agree once
      lower-cased and whose arguments agree get the same reply, unless the verb
      is unknown (the "not found" answer quotes the line as typed). */
  lemma VerbCaseIgnored(table: seq<Command>, a: string, b: string)
    requires Lower(Verb(a)) == Lower(Verb(b)) && Dispatch(a) != Unknown
    requires Split(a, ' ')[1..] == Split(b, ' ')[1..]
    ensures Interpret(table, a) == Interpret(table, b)
  {
    var pa, pb := Split(a, ' '), Split(b, ' ');
    if |pa| >= 2 {
      assert pa[1] == pa[1..][0];
      assert pb[1] == pb[1..][0];
    }
  }

  /** `color` without an argument (or with an empty one, as when the verb is
      followed by two spaces) answers the usage line and changes nothing;
      otherwise it sets the colour to the first argument, verbatim, and says so. */
  lemma ColorCommand(table: seq<Command>, cmd: string)
    requires Dispatch(cmd) == Color
    ensures FirstArg(cmd) in {None, Some("")} ==> Interpret(table, cmd) == Reply(ColorUsage, Keep)
    ensures FirstArg(cmd).Some? && FirstArg(cmd).value != "" ==>
              Interpret(table, cmd) == Reply(ColorChanged + FirstArg(cmd).value, Recolor(FirstArg(cmd).value))
  {
  }

  /** The `help` listing: when no name or description holds a line break, the
      output splits into the header followed by one "- name: description" line
      per table entry, in table order. */
  lemma HelpListing(table: seq<Command>, cmd: string)
    requires Dispatch(cmd) == Help
    requires forall i :: 0 <= i < |table| ==> '\n' !in table[i].name && '\n' !in table[i].description
    ensures Interpret(table, cmd).patch == Keep
    ensures var lines := Split(Interpret(table, cmd).output, '\n');
              && |lines| == 1 + |table|
              && lines[0] == HelpHeader
              && forall i :: 0 <= i < |table| ==>
                   lines[i + 1] == "- " + table[i].name + ": " + table[i].description
  {
    assert Interpret(table, cmd) == Reply(HelpText(table), Keep);
    HelpLinesUnbroken(table);
    SplitJoin(HelpLines(table), '\n');
  }

  /** No line of the listing holds a line break when no entry does. */
  lemma HelpLinesUnbroken(table: seq<Command>)
    requires forall i :: 0 <= i < |table| ==> '\n' !in table[i].name && '\n' !in table[i].description
    ensures forall k :: 0 <= k < |HelpLines(table)| ==> '\n' !in HelpLines(table)[k]
  {
    var lines := HelpLines(table);
    forall k | 0 <= k < |lines| ensures '\n' !in lines[k] {
      if k > 0 {
        var c := table[k - 1];
        assert lines[k] == "- " + c.name + ": " + c.description;
      }
    }
  }

  /** The command table is read by `help` only: every other line gets the same
      reply whatever the table holds. */
  lemma TableOnlyFeedsHelp(t1: seq<Command>, t2: seq<Command>, cmd: string)
    requires Dispatch(cmd) != Help
    ensures Interpret(t1, cmd) == Interpret(t2, cmd)
  {
  }

  /** The verbs that fire a session effect answer with their fixed confirmation. */
  lemma EffectReplies(table: seq<Command>, cmd: string)
    ensures Dispatch(cmd) == Theme ==> Interpret(table, cmd) == Reply("Theme toggled.", FlipTheme)
    ensures Dispatch(cmd) in {Clear, Cls} ==> Interpret(table, cmd) == Reply("", ResetHistory)
    ensures Dispatch(cmd) == Restart ==> Interpret(table, cmd) == Reply("Session restarted.", RestartSession)
    ensures Dispatch(cmd) == Quit ==> Interpret(table, cmd) == Reply("Exiting...", QuitSession)
  {
  }
}

=== FILE: option.dfy ===
/** The optional value used for the recall cursor (`number | null`) and for an
    argument that may be missing (`args[0]` on a one-token command). */
module Options {

  datatype Option<+T> = None | Some(value: T)
}

=== FILE: session.dfy ===
/** The `Terminal` component's session: the React state it keeps, the effect
    callbacks the interpreter fires, and the three event handlers
    (`executeCommand` on Enter, `handleInput` on typing, `handleKeyDown` for the
    recall keys), each as a pure transition of an immutable state record.
    State updates are applied in the order the handlers issue them. */
module Session {

  import opened Options
  import opened Text
  import opened Interpreter

  datatype ThemeMode = Light | Dark

  /** The component's state: the scrollback (`history`), the text field
      (`input`), the accent colour, the theme, the recall buffer
      (`commandHistory`) and the recall cursor (`historyIndex`, null or an index). */
  datatype State = State(
    history: seq<string>,
    input: string,
    color: string,
    theme: ThemeMode,
    commandHistory: seq<string>,
    historyIndex: Option<nat>)

  /** `e.key`: the three keys the handler tests for, and every other key. */
  datatype Key = Enter | ArrowUp | ArrowDown | OtherKey

  /** What the visitor does: edit the text field, or press a key in it. */
  datatype Event = Change(value: string) | KeyDown(key: Key)

  const Prompt := "visitor@udoka.dev:~$ "
  const DefaultColor := "#22c55e"
  const Greeting := "Welcome to Udoka's " + "Portfolio Terminal!"
  const Hint := "Type 'help' to see " + "all available commands."
  const Goodbye := "Goodbye! You can close the tab " + "or refresh to start again."

  /** The banner, as the template literal denotes it: its `\/` and `\_` are
      escapes for a plain '/' and '_', so the value holds no backslash. */
  const Banner :=
    "\n" +
    "        \n" +
    "   __  ______  ____  __ __ ___" + "         ___    __  ___\n" +
    "  / / / / __ / __ / //_//   |" + "       /   |  /  |/  /\n" +
    " / / / / / / / / / / ,<  / /| |" + "      / /| | / /|_/ / \n" +
    "/ /_/ / /_/ / /_/ / /| |/ ___ |" + "     / ___ |/ /  / /  \n" +
    "____/_____/____/_/ |_/_/  |_|" + "____/_/  |_/_/  /_/   \n" +
    "                             " + "/_____/                 \n" +
    "\n" +
    "    "

  /** The three lines the scrollback starts with and is reset to. */
  const Welcome: seq<string> := [Greeting, Banner, Hint]

  /** The recall cursor is null or points at an entry of the recall buffer. */
  predicate Valid(s: State) {
    s.historyIndex.Some? ==> s.historyIndex.value < |s.commandHistory|
  }

  /** The state when the terminal first shows; the theme comes from outside. */
  function Init(theme: ThemeMode): (s: State)
    ensures Valid(s)
    ensures s.history == Welcome && s.commandHistory == []
    ensures s.input == "" && s.color == DefaultColor && s.historyIndex == None && s.theme == theme
  {
    State(Welcome, "", DefaultColor, theme, [], None)
  }

  /** `toggleTheme`: dark becomes light, anything else becomes dark. */
  function Flip(t: ThemeMode): (u: ThemeMode)
    ensures u != t
  {
    if t == Dark then Light else Dark
  }

  /** The effect callbacks (`setColor`, `clearHistory`, `restart`, `quit`,
      `toggleTheme`) as one update; none of them touches the recall buffer or
      the recall cursor. */
  function Apply(s: State, p: Patch): (r: State)
    ensures r.commandHistory == s.commandHistory && r.historyIndex == s.historyIndex
  {
    match p
    case Keep => s
    case Recolor(c) => s.(color := c)
    case ResetHistory => s.(history := Welcome)
    case RestartSession => s.(history := Welcome, input := "", color := DefaultColor)
    case QuitSession => s.(history := [Goodbye], input := "")
    case FlipTheme => s.(theme := Flip(s.theme))
  }

  /** The scrollback lines a submission adds: the echo, then the output when
      it is not empty. */
  function Transcript(cmd: string, output: string): (lines: seq<string>)
    ensures 1 <= |lines| <= 2 && lines[0] == Prompt + cmd
    ensures |lines| == 2 <==> output != ""
    ensures |lines| == 2 ==> lines[1] == output
  {
    [Prompt + cmd] + (if output != "" then [output] else [])
  }

  /** Whether the line takes the early return for an exact "clear" or "cls". */
  predicate IsExactClear(cmd: string) {
    cmd == "clear" || cmd == "cls"
  }

  /** `executeCommand`: interpret the line, fire its effect, then (unless it
      is exactly "clear" or "cls") append its transcript and remember it when
      it is not blank. Either way the recall cursor is reset. */
  function Execute(table: seq<Command>, s: State, cmd: string): (r: State)
    ensures Valid(r) && r.historyIndex == None
    ensures IsExactClear(cmd) ==> r.commandHistory == s.commandHistory
    ensures !IsExactClear(cmd) ==>
              r.commandHistory == s.commandHistory + (if IsBlank(cmd) then [] else [cmd])
    ensures |r.commandHistory| >= |s.commandHistory| && r.commandHistory[..|s.commandHistory|] == s.commandHistory
  {
    Commit(s, cmd, Interpret(table, cmd))
  }

  /** The part of `executeCommand` after the interpreter has answered. */
  function Commit(s: State, cmd: string, reply: Reply): (r: State)
    ensures Valid(r) && r.historyIndex == None
    ensures IsExactClear(cmd) ==> r.commandHistory == s.commandHistory
    ensures !IsExactClear(cmd) ==>
              r.commandHistory == s.commandHistory + (if IsBlank(cmd) then [] else [cmd])
    ensures !IsExactClear(cmd) ==> r.history == Apply(s, reply.patch).history + Transcript(cmd, reply.output)
  {
    var t := Apply(s, reply.patch);
    if IsExactClear(cmd) then
      t.(input := "", historyIndex := None)
    else
      t.(history := t.history + Transcript(cmd, reply.output),
         commandHistory := if Trim(cmd) != "" then t.commandHistory + [cmd] else t.commandHistory,
         historyIndex := None)
  }

  /** Enter: a blank field does nothing; otherwise the trimmed field is
      executed and the field cleared. */
  function Submit(table: seq<Command>, s: State): (r: State)
    ensures IsBlank(s.input) ==> r == s
    ensures !IsBlank(s.input) ==> r.input == "" && r.historyIndex == None
    ensures Valid(s) ==> Valid(r)
  {
    var cmd := Trim(s.input);
    if cmd != "" then Execute(table, s, cmd).(input := "", historyIndex := None)
    else s
  }

  /** `commandHistory[i] || ""`: the entry, or "" past the end. */
  function Entry(buffer: seq<string>, i: nat): (e: string)
    ensures e in buffer || e == ""
    ensures i < |buffer| ==> e == buffer[i]
    ensures |buffer| <= i ==> e == ""
  {
    if i < |buffer| then buffer[i] else ""
  }

  /** ArrowUp: with an empty buffer nothing happens; otherwise the cursor goes
      to the newest entry from null, or one step older (stopping at the oldest),
      and the field shows that entry. */
  function Up(s: State): (r: State)
    ensures |s.commandHistory| == 0 ==> r == s
    ensures r.history == s.history && r.commandHistory == s.commandHistory
    ensures r.color == s.color && r.theme == s.theme
    ensures |s.commandHistory| > 0 ==> r.historyIndex.Some? && r.input == Entry(s.commandHistory, r.historyIndex.value)
    ensures |s.commandHistory| > 0 && s.historyIndex.None? ==> r.historyIndex == Some(|s.commandHistory| - 1)
    ensures |s.commandHistory| > 0 && s.historyIndex.Some? ==>
              r.historyIndex == Some(if s.historyIndex.value == 0 then 0 else s.historyIndex.value - 1)
    ensures Valid(s) ==> Valid(r)
  {
    var buffer := s.commandHistory;
    if |buffer| == 0 then s
    else
      var i: nat := match s.historyIndex
        case None => |buffer| - 1
        case Some(p) => if p - 1 < 0 then 0 else p - 1;
      s.(historyIndex := Some(i), input := Entry(buffer, i))
  }

  /** ArrowDown: with an empty buffer or a null cursor nothing happens;
      otherwise the cursor steps one newer and the field shows that entry,
      or, past the newest, the cursor becomes null and the field empties. */
  function Down(s: State): (r: State)
    ensures |s.commandHistory| == 0 || s.historyIndex.None? ==> r == s
    ensures r.history == s.history && r.commandHistory == s.commandHistory
    ensures r.color == s.color && r.theme == s.theme
    ensures s.historyIndex.Some? && s.historyIndex.value + 1 >= |s.commandHistory| > 0 ==>
              r.historyIndex == None && r.input == ""
    ensures s.historyIndex.Some? && s.historyIndex.value + 1 < |s.commandHistory| ==>
              r.historyIndex == Some(s.historyIndex.value + 1)
              && r.input == s.commandHistory[s.historyIndex.value + 1]
    ensures Valid(s) ==> Valid(r)
  {
    var buffer := s.commandHistory;
    if |buffer| == 0 then s
    else match s.historyIndex
      case None => s
      case Some(p) =>
        if p + 1 >= |buffer| then s.(input := "", historyIndex := None)
        else s.(input := Entry(buffer, p + 1), historyIndex := Some(p + 1))
  }

  /** `handleInput`: the field takes the typed value and the cursor resets. */
  function Type(s: State, value: string): (r: State)
    ensures r.input == value && r.historyIndex == None
    ensures r.history == s.history && r.commandHistory == s.commandHistory
    ensures r.color == s.color && r.theme == s.theme
    ensures Valid(r)
  {
    s.(input := value, historyIndex := None)
  }

  /** `handleKeyDown`: Enter, ArrowUp and ArrowDown act; other keys do not. */
  function Press(table: seq<Command>, s: State, k: Key): (r: State)
    ensures k.OtherKey? ==> r == s
    ensures Valid(s) ==> Valid(r)
  {
    match k
    case Enter => Submit(table, s)
    case ArrowUp => Up(s)
    case ArrowDown => Down(s)
    case OtherKey => s
  }

  function Step(table: seq<Command>, s: State, e: Event): (r: State)
    ensures Valid(s) ==> Valid(r)
  {
    match e
    case Change(v) => Type(s, v)
    case KeyDown(k) => Press(table, s, k)
  }

  /** The state after a sequence of events, oldest first. */
  function Run(table: seq<Command>, s: State, events: seq<Event>): State
    decreases |events|
  {
    if |events| == 0 then s else Run(table, Step(table, s, events[0]), events[1..])
  }

  /** The recall cursor stays null or a valid index through any session. */
  lemma {:induction false} RunKeepsValid(table: seq<Command>, s: State, events: seq<Event>)
    requires Valid(s)
    ensures Valid(Run(table, s, events))
    decreases |events|
  {
    if |events| > 0 {
      RunKeepsValid(table, Step(table, s, events[0]), events[1..]);
    }
  }

  /** The recall buffer only ever grows: every earlier entry stays in place. */
  lemma {:induction false} RunExtendsRecall(table: seq<Command>, s: State, events: seq<Event>)
    ensures var r := Run(table, s, events);
              |s.commandHistory| <= |r.commandHistory| && r.commandHistory[..|s.commandHistory|] == s.commandHistory
    decreases |events|
  {
    if |events| > 0 {
      var t := Step(table, s, events[0]);
      StepExtendsRecall(table, s, events[0]);
      RunExtendsRecall(table, t, events[1..]);
      var r := Run(table, s, events);
      assert r.commandHistory[..|s.commandHistory|] == r.commandHistory[..|t.commandHistory|][..|s.commandHistory|];
    }
  }

  lemma StepExtendsRecall(table: seq<Command>, s: State, e: Event)
    ensures var r := Step(table, s, e);
              |s.commandHistory| <= |r.commandHistory| && r.commandHistory[..|s.commandHistory|] == s.commandHistory
  {
  }

  /** An exact "clear" or "cls" resets the scrollback to the welcome lines
      with no echo and no output line, leaves the recall buffer, colour and
      theme alone, empties the field and resets the cursor. */
  lemma ExecuteExactClear(table: seq<Command>, s: State, cmd: string)
    requires IsExactClear(cmd)
    ensures var r := Execute(table, s, cmd);
              && r.history == Welcome
              && r.commandHistory == s.commandHistory
              && r.input == "" && r.historyIndex == None
              && r.color == s.color && r.theme == s.theme
  {
    ExactClearDispatch(cmd);
    assert Interpret(table, cmd).patch == ResetHistory;
  }

  /** The exact lines "clear" and "cls" select the clear case of the dispatch. */
  lemma ExactClearDispatch(cmd: string)
    requires IsExactClear(cmd)
    ensures Dispatch(cmd) in {Clear, Cls}
  {
    assert ' ' !in cmd;
    SplitJoin([cmd], ' ');
    assert Lower(Verb(cmd)) == cmd;
    if cmd == "clear" {
      ClassifyName(Clear);
    } else {
      ClassifyName(Cls);
    }
  }

  /** A line outside the clear case is never exactly "clear" or "cls". */
  lemma NotExactClear(cmd: string)
    requires Dispatch(cmd) !in {Clear, Cls}
    ensures !IsExactClear(cmd)
  {
    if IsExactClear(cmd) {
      ExactClearDispatch(cmd);
    }
  }

  /** Any verb but clear, cls, restart and quit keeps every earlier scrollback
      line and adds exactly the echo and the (never empty) output. */
  lemma ExecuteKeepsScrollback(table: seq<Command>, s: State, cmd: string)
    requires Dispatch(cmd) !in {Clear, Cls, Restart, Quit}
    ensures var r := Execute(table, s, cmd);
              && |r.history| == |s.history| + 2
              && r.history[..|s.history|] == s.history
              && r.history[|s.history|] == Prompt + cmd
              && r.history[|s.history| + 1] == Interpret(table, cmd).output
  {
    NotExactClear(cmd);
    var reply := Interpret(table, cmd);
    assert Apply(s, reply.patch).history == s.history;
    assert reply.output != "";
  }

  /** A line whose verb is clear or cls in any other spelling ("CLEAR",
      "clear x") misses the early return: the scrollback is reset to the
      welcome lines and the echo is appended after them. */
  lemma ExecuteClearVerb(table: seq<Command>, s: State, cmd: string)
    requires Dispatch(cmd) in {Clear, Cls} && !IsExactClear(cmd)
    ensures Execute(table, s, cmd).history == Welcome + [Prompt + cmd]
  {
    var reply := Interpret(table, cmd);
    assert reply.output == "" && reply.patch == ResetHistory;
    assert Transcript(cmd, "") == [Prompt + cmd];
  }

  /** "CLEAR" in capitals selects the clear case but is not the exact line
      "clear", so it misses the early return. */
  lemma ShoutedClearDispatch()
    ensures Dispatch("CLEAR") == Clear
    ensures !IsExactClear("CLEAR")
  {
    var cmd := "CLEAR";
    assert ' ' !in cmd;
    SplitJoin([cmd], ' ');
    assert Verb(cmd) == cmd;
    assert SpellsIgnoringCase(cmd, Name(Clear)) by {
      assert Name(Clear) == "clear";
    }
    VerbAnyCase(Clear, cmd);
    assert cmd[0] != "clear"[0] && cmd[0] != "cls"[0];
  }

  /** Submitting "CLEAR" leaves the welcome lines followed by its echo. */
  lemma ShoutedClear(table: seq<Command>, s: State)
    ensures Execute(table, s, "CLEAR").history == Welcome + [Prompt + "CLEAR"]
  {
    ShoutedClearDispatch();
    ExecuteClearVerb(table, s, "CLEAR");
  }

  /** restart: the scrollback becomes the welcome lines followed by the echo
      and "Session restarted.", the colour returns to its default and the
      field empties. */
  lemma ExecuteRestart(table: seq<Command>, s: State, cmd: string)
    requires Dispatch(cmd) == Restart
    ensures var r := Execute(table, s, cmd);
              && r.history == Welcome + [Prompt + cmd, "Session restarted."]
              && r.color == DefaultColor && r.input == ""
  {
    NotExactClear(cmd);
    CannedReply(table, cmd);
    CommitRestart(s, cmd);
  }

  lemma CommitRestart(s: State, cmd: string)
    requires !IsExactClear(cmd)
    ensures var r := Commit(s, cmd, Reply("Session restarted.", RestartSession));
              && r.history == Welcome + [Prompt + cmd, "Session restarted."]
              && r.color == DefaultColor && r.input == ""
  {
    assert Transcript(cmd, "Session restarted.") == [Prompt + cmd, "Session restarted."];
  }

  /** quit: the scrollback becomes the goodbye line followed by the echo and
      "Exiting..."; the session stays interactive. */
  lemma ExecuteQuit(table: seq<Command>, s: State, cmd: string)
    requires Dispatch(cmd) == Quit
    ensures var r := Execute(table, s, cmd);
              && r.history == [Goodbye, Prompt + cmd, "Exiting..."]
              && r.input == "" && r.color == s.color
  {
    NotExactClear(cmd);
    CannedReply(table, cmd);
    CommitQuit(s, cmd);
  }

  lemma CommitQuit(s: State, cmd: string)
    requires !IsExactClear(cmd)
    ensures var r := Commit(s, cmd, Reply("Exiting...", QuitSession));
              && r.history == [Goodbye, Prompt + cmd, "Exiting..."]
              && r.input == "" && r.color == s.color
  {
    assert Transcript(cmd, "Exiting...") == [Prompt + cmd, "Exiting..."];
  }

  /** The colour changes only through `color` with a non-empty argument
      (to that argument) or through restart (to the default). */
  lemma ExecuteColor(table: seq<Command>, s: State, cmd: string)
    ensures var r := Execute(table, s, cmd);
              && (Dispatch(cmd) == Color && FirstArg(cmd).Some? && FirstArg(cmd).value != "" ==>
                    r.color == FirstArg(cmd).value)
              && (Dispatch(cmd) == Restart ==> r.color == DefaultColor)
              && (Dispatch(cmd) != Restart && !(Dispatch(cmd) == Color && FirstArg(cmd) !in {None, Some("")}) ==>
                    r.color == s.color)
  {
    var reply := Interpret(table, cmd);
    assert Execute(table, s, cmd).color == Apply(s, reply.patch).color;
    if Dispatch(cmd) == Color && FirstArg(cmd).Some? && FirstArg(cmd).value != "" {
      ColorCommand(table, cmd);
    }
  }

  /** The theme flips exactly on `theme`. */
  lemma ExecuteTheme(table: seq<Command>, s: State, cmd: string)
    ensures Execute(table, s, cmd).theme == (if Dispatch(cmd) == Theme then Flip(s.theme) else s.theme)
  {
  }

  /** Enter on a non-blank field runs the command on the trimmed text: the
      scrollback, colour, theme and recall buffer are exactly those
      `executeCommand` leaves, so every `Execute*` lemma applies to Enter. */
  lemma SubmitRuns(table: seq<Command>, s: State)
    requires !IsBlank(s.input)
    ensures var r := Submit(table, s);
            var x := Execute(table, s, Trim(s.input));
              && r.history == x.history && r.color == x.color && r.theme == x.theme
              && r.commandHistory == x.commandHistory
              && r.input == "" && r.historyIndex == None
  {
  }

  /** Enter on a non-blank field runs the trimmed text: unless that is exactly
      "clear" or "cls", it is echoed and becomes the newest recall entry. */
  lemma SubmitRemembers(table: seq<Command>, s: State)
    requires !IsBlank(s.input) && !IsExactClear(Trim(s.input))
    ensures var r := Submit(table, s);
              && r.commandHistory == s.commandHistory + [Trim(s.input)]
              && Prompt + Trim(s.input) in r.history
              && r.input == "" && r.historyIndex == None
  {
    TrimIdempotent(s.input);
  }

  /** ArrowDown undoes ArrowUp from any entry but the oldest. */
  lemma UpThenDown(s: State)
    requires Valid(s) && s.historyIndex.Some? && s.historyIndex.value > 0
    ensures Down(Up(s)).historyIndex == s.historyIndex
    ensures Down(Up(s)).input == s.commandHistory[s.historyIndex.value]
  {
  }

  /** ArrowUp undoes ArrowDown from any entry but the newest. */
  lemma DownThenUp(s: State)
    requires s.historyIndex.Some? && s.historyIndex.value + 1 < |s.commandHistory|
    ensures Up(Down(s)).historyIndex == s.historyIndex
    ensures Up(Down(s)).input == s.commandHistory[s.historyIndex.value]
  {
  }

  /** From a null cursor, ArrowUp then ArrowDown leaves the cursor null and
      the field empty. */
  lemma UpThenDownFromIdle(s: State)
    requires s.historyIndex.None? && |s.commandHistory| > 0
    ensures Down(Up(s)).historyIndex.None? && Down(Up(s)).input == ""
  {
  }

  /** Two submissions, "about" then "skills": ArrowUp twice shows "about",
      ArrowDown shows "skills", ArrowDown again empties the field and nulls
      the cursor. The case of `WalkLastTwo` with no older entries. */
  lemma RecallScenario(s: State)
    requires s.commandHistory == ["about", "skills"] && s.historyIndex.None?
    ensures Up(Up(s)).input == "about"
    ensures Down(Up(Up(s))).input == "skills"
    ensures Down(Down(Up(Up(s)))).input == "" && Down(Down(Up(Up(s)))).historyIndex.None?
  {
    assert s.commandHistory == [] + ["about", "skills"];
    WalkLastTwo(s, [], "about", "skills");
  }

  /** Typing a command that is already trimmed and pressing Enter records it
      as the newest recall entry, nulls the cursor and empties the field. */
  lemma TypeThenSubmit(table: seq<Command>, s: State, cmd: string)
    requires cmd != "" && Trim(cmd) == cmd && !IsExactClear(cmd)
    ensures var r := Submit(table, Type(s, cmd));
              r.commandHistory == s.commandHistory + [cmd] && r.historyIndex.None? && r.input == ""
  {
    SubmitRemembers(table, Type(s, cmd));
  }

  /** The ArrowUp/ArrowDown walk over the two newest recall entries. */
  lemma WalkLastTwo(s: State, older: seq<string>, a: string, b: string)
    requires s.commandHistory == older + [a, b] && s.historyIndex.None?
    ensures Up(Up(s)).input == a && Up(Up(s)).historyIndex == Some(|older|)
    ensures Down(Up(Up(s))).input == b
    ensures Down(Down(Up(Up(s)))).input == "" && Down(Down(Up(Up(s)))).historyIndex.None?
  {
  }
}

=== FILE: text.dfy ===
/** The ECMAScript string operations the terminal relies on, on `seq<char>`:
    `String.prototype.split` with a one-character separator, `Array.prototype.join`,
    `String.prototype.trim` and, as far as matching ASCII verbs goes,
    `String.prototype.toLowerCase`. */
module Text {

  /** The characters `trim()` removes: ECMAScript WhiteSpace (TAB, VT, FF, ZWNBSP
      and every Unicode "Zs" space) and LineTerminator (LF, CR, LS, PS). */
  predicate IsJsWhitespace(c: char) {
    || c == '\t' || c == '\U{000B}' || c == '\U{000C}' || c == ' '
    || c == '\n' || c == '\r'
    || c == '\U{00A0}' || c == '\U{1680}'
    || ('\U{2000}' <= c <= '\U{200A}')
    || c == '\U{2028}' || c == '\U{2029}' || c == '\U{202F}' || c == '\U{205F}'
    || c == '\U{3000}' || c == '\U{FEFF}'
  }

  /** A string `trim()` reduces to "". */
  predicate IsBlank(s: string) {
    forall i :: 0 <= i < |s| ==> IsJsWhitespace(s[i])
  }

  function TrimStart(s: string): (r: string)
    ensures |r| <= |s| && r == s[|s| - |r|..]
    ensures r == [] || !IsJsWhitespace(r[0])
    ensures forall i :: 0 <= i < |s| - |r| ==> IsJsWhitespace(s[i])
    decreases |s|
  {
    if |s| > 0 && IsJsWhitespace(s[0]) then
      var r := TrimStart(s[1..]);
      assert forall i :: 1 <= i < |s| - |r| ==> s[i] == s[1..][i - 1];
      r
    else
      s
  }

  function TrimEnd(s: string): (r: string)
    ensures |r| <= |s| && r == s[..|r|]
    ensures r == [] || !IsJsWhitespace(r[|r| - 1])
    ensures forall i :: |r| <= i < |s| ==> IsJsWhitespace(s[i])
    decreases |s|
  {
    if |s| > 0 && IsJsWhitespace(s[|s| - 1]) then
      var r := TrimEnd(s[..|s| - 1]);
      assert forall i :: |r| <= i < |s| - 1 ==> s[i] == s[..|s| - 1][i];
      r
    else
      s
  }

  /** `s.trim()`: the longest slice of `s` that neither starts nor ends with
      whitespace; it is empty exactly when `s` is blank. */
  function Trim(s: string): (r: string)
    ensures |r| <= |s|
    ensures r == [] || (!IsJsWhitespace(r[0]) && !IsJsWhitespace(r[|r| - 1]))
    ensures r == [] <==> IsBlank(s)
  {
    var t := TrimStart(s);
    var r := TrimEnd(t);
    r
  }

  /** `trim()` removes only whitespace, and only at the two ends: the result
      is the slice `s[a..b]` with everything before `a` and from `b` on blank. */
  lemma TrimIsSlice(s: string)
    ensures exists a, b :: 0 <= a <= b <= |s| && Trim(s) == s[a..b]
                           && IsBlank(s[..a]) && IsBlank(s[b..])
  {
    var t := TrimStart(s);
    var r := TrimEnd(t);
    var a := |s| - |t|;
    var b := a + |r|;
    assert t == s[a..];
    assert r == s[a..b];
    assert IsBlank(s[..a]);
    assert IsBlank(s[b..]) by {
      forall i | 0 <= i < |s| - b ensures IsJsWhitespace(s[b..][i]) {
        assert s[b..][i] == t[|r| + i];
      }
    }
  }

  /** A string that neither starts nor ends with whitespace is its own trim. */
  lemma TrimKeeps(s: string)
    requires s == [] || (!IsJsWhitespace(s[0]) && !IsJsWhitespace(s[|s| - 1]))
    ensures Trim(s) == s
  {
    assert TrimStart(s) == s;
    assert TrimEnd(s) == s;
  }

  /** Trimming a trimmed string changes nothing. */
  lemma TrimIdempotent(s: string)
    ensures Trim(Trim(s)) == Trim(s)
  {
    TrimKeeps(Trim(s));
  }

  /** `toLowerCase()` on one character, exact whenever the result is compared
      with an ASCII word: A-Z become a-z and U+212A KELVIN SIGN becomes 'k'.
      ECMAScript leaves every other ASCII character unchanged, and lowers every
      other non-ASCII character to text that still holds a non-ASCII character;
      the model keeps those as they are, so the two agree on which inputs equal
      an ASCII word. */
  function LowerChar(c: char): (d: char)
    ensures 'A' <= c <= 'Z' ==> d as int == c as int + 32
    ensures c == '\U{212A}' ==> d == 'k'
    ensures 'a' <= d <= 'z' ==> d == c || d as int == c as int + 32 || c == '\U{212A}'
  {
    if 'A' <= c <= 'Z' then (c as int + 32) as char
    else if c == '\U{212A}' then 'k'
    else c
  }

  /** `s.toLowerCase()`, character by character. */
  function Lower(s: string): (r: string)
    ensures |r| == |s|
    ensures forall i :: 0 <= i < |s| ==> r[i] == LowerChar(s[i])
  {
    seq(|s|, i requires 0 <= i < |s| => LowerChar(s[i]))
  }

  /** A word of ASCII lower-case letters only. */
  predicate IsLowerWord(w: string) {
    forall i :: 0 <= i < |w| ==> 'a' <= w[i] <= 'z'
  }

  /** `s` spells `w` in some mix of letter cases: each character is the
      letter, its capital, or (for 'k') the Kelvin sign. */
  predicate SpellsIgnoringCase(s: string, w: string) {
    && |s| == |w|
    && forall i :: 0 <= i < |s| ==>
         || s[i] == w[i]
         || s[i] as int == w[i] as int - 32
         || (w[i] == 'k' && s[i] == '\U{212A}')
  }

  /** Lower-casing gives a lower-case ASCII word exactly when the string
      spells that word in any mix of cases. */
  lemma LowerMatches(s: string, w: string)
    requires IsLowerWord(w)
    ensures Lower(s) == w <==> SpellsIgnoringCase(s, w)
  {
    if SpellsIgnoringCase(s, w) {
      forall i | 0 <= i < |s| ensures Lower(s)[i] == w[i] {
        assert 'a' <= w[i] <= 'z';
      }
    }
  }

  /** `parts.join(sep)` for a one-character separator. */
  function Join(parts: seq<string>, sep: char): (r: string)
    ensures |parts| >= 1 ==> |parts[0]| <= |r| && r[..|parts[0]|] == parts[0]
    ensures |parts| >= 2 ==> |parts[0]| < |r| && r[|parts[0]|] == sep
    ensures |parts| == 1 ==> r == parts[0]
    decreases |parts|
  {
    if |parts| == 0 then ""
    else if |parts| == 1 then parts[0]
    else parts[0] + [sep] + Join(parts[1..], sep)
  }

  /** `s.split(sep)` for a one-character separator: never empty, no piece holds
      the separator, and joining the pieces back gives `s`. */
  function Split(s: string, sep: char): (parts: seq<string>)
    ensures |parts| >= 1
    ensures forall k :: 0 <= k < |parts| ==> sep !in parts[k]
    ensures Join(parts, sep) == s
    decreases |s|
  {
    if |s| == 0 then [""]
    else
      var rest := Split(s[1..], sep);
      assert s == [s[0]] + s[1..];
      if s[0] == sep then
        JoinEmptyFirst(rest, sep);
        [""] + rest
      else
        JoinExtendFirst(s[0], rest, sep);
        [[s[0]] + rest[0]] + rest[1..]
  }

  /** Putting an empty piece in front adds one separator in front. */
  lemma JoinEmptyFirst(rest: seq<string>, sep: char)
    requires |rest| >= 1
    ensures Join([""] + rest, sep) == [sep] + Join(rest, sep)
  {
    assert ([""] + rest)[1..] == rest;
  }

  /** Growing the first piece by one character grows the join the same way. */
  lemma JoinExtendFirst(c: char, rest: seq<string>, sep: char)
    requires |rest| >= 1
    ensures Join([[c] + rest[0]] + rest[1..], sep) == [c] + Join(rest, sep)
  {
    var parts := [[c] + rest[0]] + rest[1..];
    if |rest| >= 2 {
      assert parts[1..] == rest[1..];
      calc {
        Join(parts, sep);
        ([c] + rest[0]) + [sep] + Join(rest[1..], sep);
        [c] + (rest[0] + [sep] + Join(rest[1..], sep));
        [c] + Join(rest, sep);
      }
    }
  }

  /** Joining determines the pieces: two separator-free, non-empty lists of
      pieces that join to the same string are equal. */
  lemma {:induction false} JoinInjective(p: seq<string>, q: seq<string>, sep: char)
    requires |p| >= 1 && |q| >= 1
    requires forall k :: 0 <= k < |p| ==> sep !in p[k]
    requires forall k :: 0 <= k < |q| ==> sep !in q[k]
    requires Join(p, sep) == Join(q, sep)
    ensures p == q
    decreases |p|
  {
    var j := Join(p, sep);
    if |p| >= 2 && |q| >= 2 {
      assert |p[0]| == |q[0]|;
      assert j[|p[0]| + 1..] == Join(p[1..], sep);
      assert j[|q[0]| + 1..] == Join(q[1..], sep);
      JoinInjective(p[1..], q[1..], sep);
    }
  }

  /** `split` undoes `join` when no piece holds the separator. */
  lemma SplitJoin(parts: seq<string>, sep: char)
    requires |parts| >= 1
    requires forall k :: 0 <= k < |parts| ==> sep !in parts[k]
    ensures Split(Join(parts, sep), sep) == parts
  {
    JoinInjective(Split(Join(parts, sep), sep), parts, sep);
  }
}
